=== FILE: README.md ===
# ArchiveExtract — a Dafny model of the archive/extract layer

ArchiveExtract is a one-page Windows application. The user picks a parent
folder, then archives a file or a folder inside it to `<name>.zip`, or
extracts such an archive again. The ZIP work itself is done by an external
library (`LibZA`). This project models the layer of
`ArchiveExtract/MainPage.xaml.cs` around that library:

- **The naming convention** (`FileNames`, `Extensions`). An archive's name
  records whether it holds a file or a folder. A file may be archived only if
  it has exactly one extension, which is not `.zip`. A folder may be archived
  only if it has no extension. Extraction strips one extension and checks
  whether a second one remains. `GetNumberOfExtensions` is modelled as the
  source's loop, and the strip-to-fixpoint count is proved equal to the number
  of dots.
- **The three click handlers** (`Handlers`). `ButArchiveFile_Click`,
  `ButArchiveFolder_Click` and `ButExtractArchiveFile_Click` become pure
  functions over an `Oracle`: the answers of the platform and of the archive
  library. Each returns a status and a trace of effects on the parent folder.
  The parent folder is a set of names. The effects are create, engine call and
  delete. Every handler keeps the `Safe` discipline:
  - it never creates under a taken name;
  - the engine writes only into something the click created, or under a free
    name;
  - every deletion directly follows an engine call: after a success it deletes
    the item the engine read, after a failure only what the click created.
- **The skipped-items report** (`ItemsReport.StringListItemPathErrors`).
- **The settings** (`Settings`): the rate-prompt counter (`AppRatedCheck`), the
  compression-level encoding (`AppCompressionLevelSet` and the three radio
  handlers), and `AppReset`, all over a key/value store.

`Wrappers` holds the `Option` type.

Notes on the program's behaviour that the model follows:

- Extraction reads an archive as a file when its name has two **or more**
  extensions, not exactly two. It reads it as a folder when the name has at
  most one. The picker's type filter only offers names with an extension
  (`.zip`, in any letter case), so "at most one" means exactly one there
  (`ArchiveOriginOfPickedArchive`).
- The newly created archive is cleaned up only when a *file* archive fails
  (line 724). A failed *folder* archive keeps the partial archive and the
  folder (lines 815-820). A failed folder extraction keeps the new destination
  folder.
- The report's line break is `Environment.NewLine`, which is `"\r\n"` on
  Windows.
- Refusing to overwrite is the handlers' own check before the library is
  called. The library's own defences are not modelled.

## Model

| member | source | states |
|---|---|---|
| FileNames.WithoutExtension | ArchiveExtract/MainPage.xaml.cs:464 | `Path.GetFileNameWithoutExtension` of an item name: the prefix before the last dot, and the whole name when there is no dot |
| FileNames.Extension | ArchiveExtract/MainPage.xaml.cs:695 | `Path.GetExtension`: the suffix from the last dot, "" without a dot or when the name ends in its last dot; the name is the stripped name followed by it |
| FileNames.WithoutExtensionDropsOneDot | ArchiveExtract/MainPage.xaml.cs:472-478 | each strip in the counting loop removes exactly one dot |
| FileNames.StripAppendedExtension | ArchiveExtract/MainPage.xaml.cs:703 | appending an extension such as ".zip" adds one dot, and stripping and `GetExtension` give back the name and the extension |
| Extensions.ArchiveName | ArchiveExtract/MainPage.xaml.cs:796 | the archive name `name + ".zip"` strips back to `name`, has extension ".zip" and one dot more |
| Extensions.ArchiveNameIsNew | ArchiveExtract/MainPage.xaml.cs:703 | the archive's name is never the name of the item it archives, so deleting the item after compressing keeps the archive |
| Extensions.GetNumberOfExtensions | ArchiveExtract/MainPage.xaml.cs:462-482 | returns 0 exactly when one strip leaves the name unchanged; otherwise counts the strips until the name is fixed, which is the number of dots |
| Extensions.ExtensionCountIsDotCount | ArchiveExtract/MainPage.xaml.cs:462-482 | stripping to a fixpoint terminates after as many strips as the name has dots |
| Extensions.DestinationName | ArchiveExtract/MainPage.xaml.cs:886 | the destination name has one extension fewer than the archive, and appending the archive's extension (".zip" in any letter case, or any other) to it gives the archive's name back |
| Extensions.ArchiveOriginByExtensionCount | ArchiveExtract/MainPage.xaml.cs:886-891 | the classifier `ArchiveOrigin` (strip twice, compare) takes the folder branch iff the name has at most one extension and the file branch iff it has two or more |
| Extensions.ArchiveOriginOfPickedArchive | ArchiveExtract/MainPage.xaml.cs:873-891 | for a name with an extension, as the picker's type filter allows, folder iff exactly one extension, file iff two or more |
| Extensions.FileAcceptedByDots | ArchiveExtract/MainPage.xaml.cs:695-697 | the file guard `FileAccepted` holds exactly when the name has one dot and its extension is not ".zip" |
| Extensions.FolderAcceptedByDots | ArchiveExtract/MainPage.xaml.cs:787 | the folder guard `FolderAccepted` holds exactly when the name has no dot |
| Extensions.FileRoundTrip | ArchiveExtract/MainPage.xaml.cs:695-703 | a file accepted for archiving (not ".zip", one extension) has an archive that extraction reads as a file named like the original |
| Extensions.FolderRoundTrip | ArchiveExtract/MainPage.xaml.cs:787-796 | a folder accepted for archiving (no extension) has an archive that extraction reads as a folder named like the original |
| Extensions.ArchiveNamesDistinguishOrigin | ArchiveExtract/MainPage.xaml.cs:884-891 | the archive of an accepted file and that of an accepted folder never have the same name |
| Extensions.ExtensionlessFileIsRefused | ArchiveExtract/MainPage.xaml.cs:697 | an extensionless file, whose archive would read back as a folder, is refused by the one-extension check |
| ItemsReport.Decimal | ArchiveExtract/MainPage.xaml.cs:366 | the count in the header is rendered as decimal digits with no leading zero |
| ItemsReport.HeaderSingular | ArchiveExtract/MainPage.xaml.cs:362-369 | the report's first line `Header`: one skipped path gives a line break and then "1 item not processed", the count and the text joined by one space |
| ItemsReport.HeaderPlural | ArchiveExtract/MainPage.xaml.cs:371-378 | `Header`: any other count gives a line break, the count in decimal and "items not processed", joined by one space |
| ItemsReport.DecimalRoundTrip | ArchiveExtract/MainPage.xaml.cs:375 | the rendered count reads back as the number of skipped paths |
| ItemsReport.LinesSnoc | ArchiveExtract/MainPage.xaml.cs:381-382 | each loop step appends one line holding the next path |
| ItemsReport.LinesAppend | ArchiveExtract/MainPage.xaml.cs:381-382 | the lines of two lists one after another are the lines of the joined list |
| ItemsReport.LinesListEachPathInOrder | ArchiveExtract/MainPage.xaml.cs:381-382 | in the path lines `Lines`, every path stands on its own line, after the lines of all paths before it and before the lines of all paths after it |
| ItemsReport.LinesOfNextPrefix | ArchiveExtract/MainPage.xaml.cs:381-382 | one more pass of the loop appends a line break and the next path to the lines of the paths seen so far |
| ItemsReport.StringListItemPathErrors | ArchiveExtract/MainPage.xaml.cs:357-385 | empty list gives ""; one path gives the header "1 item not processed"; N ≥ 2 gives "N items not processed"; then each path in order on its own line |
| Settings.Increment | ArchiveExtract/MainPage.xaml.cs:198 | `++` on a C# int is addition of one modulo 2^32, read back as a signed 32-bit value |
| Settings.AppRatedCheck | ArchiveExtract/MainPage.xaml.cs:191-214 | rated: store unchanged and no button. Absent counter: set to 1. Otherwise the counter is incremented and the incremented value is stored; on reaching 6 or more it resets to 0 instead and the button is shown. Other keys are untouched and a counter in 0..5 stays in 0..5 |
| Settings.RateChecks | ArchiveExtract/MainPage.xaml.cs:541 | after at least one unrated page load the store holds an int counter |
| Settings.RateCheckStep | ArchiveExtract/MainPage.xaml.cs:193-209 | an unrated load moves a counter in 0..5 one step round the cycle, from 5 back to 0, and shows the button exactly at that step |
| Settings.RateButtonEverySixthLoad | ArchiveExtract/MainPage.xaml.cs:193-212 | from a store without a counter, after k loads the counter is k mod 6 and the button is shown on exactly every sixth load |
| Settings.AppCompressionLevelSet | ArchiveExtract/MainPage.xaml.cs:280-311 | a stored "Fastest" selects Fastest and a stored "Optimal" selects Optimal, leaving the store unchanged. Nothing stored selects NoCompression, and so does any other value. The stored string always names the chosen level, and other keys are untouched |
| Settings.RadioChecked | ArchiveExtract/MainPage.xaml.cs:629-664 | a radio handler stores its level's name under the level key, adds no other key and keeps every other value, and the next `AppCompressionLevelSet` decodes it to the same level with the same store |
| Settings.LevelSetIdempotent | ArchiveExtract/MainPage.xaml.cs:284-310 | reading the level again after it was read changes neither level nor store |
| Settings.AppReset | ArchiveExtract/MainPage.xaml.cs:251-274 | ResetApp clears the store but keeps the flags. ResetPurchaseHistory and ResetRateHistory remove their key and clear their flag. DoNothing and ShowDataStoreValues change nothing. No reset adds or alters a value |
| Settings.ResetIdempotent | ArchiveExtract/MainPage.xaml.cs:251-274 | applying a reset twice is applying it once |
| Settings.ResetAppStartsOver | ArchiveExtract/MainPage.xaml.cs:532-541 | after a full reset, page load's level read selects NoCompression and stores it as "NoCompression"; the rate check applied to the store that read leaves holds exactly that setting and a counter of 1 |
| Handlers.CompressStepsSafe | ArchiveExtract/MainPage.xaml.cs:708-724 | the steps `CompressSteps`: create archive, compress, then delete the source on success or the new archive on a failed file compress. This is safe, and the folder ends with the source replaced by the archive, unchanged, or with the archive added |
| Handlers.ExtractIntoFolderStepsSafe | ArchiveExtract/MainPage.xaml.cs:897-915 | the steps `ExtractIntoFolderSteps`: create the destination folder, extract into it, and delete the archive only on success; safe, and the folder gains the destination |
| Handlers.ExtractIntoParentStepsSafe | ArchiveExtract/MainPage.xaml.cs:927-943 | the steps `ExtractIntoParentSteps`: extract into the parent under a free destination name, and delete the archive only on success |
| Handlers.ArchiveFile | ArchiveExtract/MainPage.xaml.cs:671-755 | safe. Acts iff token, pick, parent, not-".zip", one extension, unlocked, free archive name and create all pass, and then creates "<name>.zip" and compresses the file into it at the chosen level. Succeeds iff in addition the engine succeeds; then the file is replaced by its archive. A failed compress leaves the folder as it was. Every other abort does nothing and names the first failing check in the source's order: token, pick, parent, already archived, extension count, lock, destination, create |
| Handlers.ArchiveFolder | ArchiveExtract/MainPage.xaml.cs:762-850 | safe. Acts iff token, pick, in-tree, no extension, unlocked, parent, free archive name and create all pass, and then creates "<name>.zip" and compresses the folder into it at the chosen level. Succeeds iff in addition the engine succeeds; then the folder is replaced by its archive. An incomplete compress keeps the archive and reports the skipped paths. Every other abort does nothing and names the first failing check in the source's order: token, pick, in-tree, extension, lock, parent, destination, create |
| Handlers.ExtractArchive | ArchiveExtract/MainPage.xaml.cs:857-965 | safe. Acts iff token, pick, parent, unlocked and free destination pass, plus create in the folder branch. Succeeds iff in addition the engine succeeds, and only then deletes the archive. The archive is deleted only on success. The folder branch starts by creating the destination folder; the file branch extracts straight into the parent. An engine failure reports incomplete extraction in the folder branch and failed extraction in the file branch. Every earlier abort does nothing and names the first failing check in the source's order: token, pick, parent, lock, destination, create |
| Handlers.ExtractFileArchive | ArchiveExtract/MainPage.xaml.cs:923-947 | once the checks pass and the destination name is free, an archive read as a file is extracted straight into the parent and deleted only on success |
| Handlers.ExtractFolderArchive | ArchiveExtract/MainPage.xaml.cs:891-908 | once the checks pass, the destination name is free and the folder is created, an archive read as a folder is extracted into a new folder named after it and deleted only on success |
| Handlers.ArchiveFileFreesName | ArchiveExtract/MainPage.xaml.cs:708-717 | after a successful file archive the file's own name is free again in the parent, because the archive never takes it and the file is deleted |
| Handlers.ArchiveFolderFreesName | ArchiveExtract/MainPage.xaml.cs:802-812 | after a successful folder archive the folder's own name is free again in the parent |
| Handlers.ExtractAfterFileArchive | ArchiveExtract/MainPage.xaml.cs:884-936 | the archive of an accepted file, extracted where the file's name is free, goes through the file branch into the parent |
| Handlers.ExtractAfterFolderArchive | ArchiveExtract/MainPage.xaml.cs:884-915 | the archive of an accepted folder, extracted where the folder's name is free, gets a new folder of that name and is extracted into it |
| Handlers.ArchiveFileThenExtract | ArchiveExtract/MainPage.xaml.cs:884-936 | after a successful file archive, extracting its archive in the resulting folder takes the file branch and restores the original name |
| Handlers.ArchiveFolderThenExtract | ArchiveExtract/MainPage.xaml.cs:884-908 | after a successful folder archive, extracting its archive in the resulting folder recreates a folder of the original name and extracts into it |

## Left out

- The `LibZA` archive library is not modelled: ZIP compression and extraction, the lock probe and `listItemPathErrors`. Its source is not part of this model. Its answers are the `Oracle` fields `locked`, `engineSucceeded` and `skippedPaths`.
- What the library writes is not tracked in the parent folder's names. That covers the archive's contents, the extracted entries, and the file it writes into the parent in the file branch of extraction. `Apply` tracks only the handlers' own creations and deletions.
- Windows.Storage is replaced by oracle answers and a set of names. That covers the pickers, the `FutureAccessList` token, `GetParentAsync`, `TryGetItemAsync`, `CreateFileAsync` / `CreateFolderAsync`, `DeleteAsync`, `StorageFolderFromFolderPickerAsync` and `StorageFolderTokenCheckIfExistsAsync`. A create that throws is modelled like one that returns null.
- `ButAppFolderPick_Click` and `ButAppFolderOpen_Click` are not modelled: they only obtain the access token and open File Explorer, which are platform services.
- Name lookup in a folder is case-insensitive on Windows, but the parent folder is modelled as a set of exact names. `TryGetItemAsync` (lines 705, 798, 895, 927) finds "A.TXT.ZIP" when asked for "a.txt.zip", so the source refuses a case where the model reports the destination free and archives. Modelling this would need the platform's case-folding tables.
- `DeleteAsync` (lines 717, 724, 812, 907, 935) is assumed to succeed. A delete that throws is not modelled; only a failed create is.
- AppRatedCheck: requires the stored counter to be an int. The `(int)` cast at line 197 would throw `InvalidCastException` for any other value, but the program itself only ever writes ints under that key (lines 204, 209, 212).
- Item names are assumed to contain no directory or volume separator. Windows item names never do, so `Path.GetFileNameWithoutExtension` and `Path.GetExtension` are modelled on the name alone.
- Purchase and rating dialogs are not modelled: `AppPurchaseCheck`, `AppPurchaseBuy`, `RateAppInW10Store` and the other `LibMPC` calls, including `DataStoreStringToBool`. They are store and network services.
- UI enablement, focus, visibility and the progress bar are not modelled.
- The texts of the messages are not modelled. Each abort is a distinct `Abort` value instead. The paths and elapsed seconds (`:N2`, floating point) in the messages are presentation.
- async/await is erased. The handlers run one at a time.
- `AppReset`'s `default` branch, which throws `NotSupportedException`, cannot be reached: `ResetOption` is a closed datatype.
- ItemsReport.StringListItemPathErrors: assumes that `LibMPC.JoinListString` with `EnumStringSeparator.OneSpace` (lines 369 and 378) joins its two parts with exactly one space and trims nothing. That library is not part of this model, and `ItemsReport.Header` and the method's ensures both rest on that reading.
- ResetAppStartsOver: states the rate check applied to the store the level read leaves. It assumes that nothing between them writes the counter or the level key, and that the rated flag reads as false once its key is gone. `AppPurchaseCheck` (line 540) is handed the store and the purchased key, and `DataStoreStringToBool` (lines 537-538) reads the flags; both belong to a library that is not part of this model.
- The sixth-load property is stated for a store that starts without a counter (`RateButtonEverySixthLoad`). A foreign value already stored under the counter key is only followed step by step by `AppRatedCheck`, including the wrap-around at the largest int.

=== FILE: extensions.dfy ===
/**
 * The naming convention that records, in an archive's name, whether it holds
 * an original file or an original folder: archiving appends ".zip", and
 * extracting strips one extension and looks whether a second one remains.
 */
module Extensions {
  import opened FileNames

  /** stringCompressedFileExtension. */
  const ArchiveExtension: string := ".zip"

  /** The name given to the archive of an item called `name`. */
  function ArchiveName(name: string): (r: string)
    ensures WithoutExtension(r) == name
    ensures Extension(r) == ArchiveExtension
    ensures DotCount(r) == DotCount(name) + 1
  {
    StripAppendedExtension(name, ArchiveExtension);
    name + ArchiveExtension
  }

  /** An archive never takes the name of the item it was made from. */
  lemma ArchiveNameIsNew(name: string)
    ensures ArchiveName(name) != name
  {
    assert DotCount(ArchiveName(name)) != DotCount(name);
  }

  /** The number of times an extension can be stripped before the name stops changing. */
  function ExtensionCount(name: string): nat
    decreases |name|
  {
    var shorter := WithoutExtension(name);
    if shorter == name then 0 else 1 + ExtensionCount(shorter)
  }

  /** Every strip removes one dot, so the strips counted are the dots of the name. */
  lemma {:induction false} ExtensionCountIsDotCount(name: string)
    ensures ExtensionCount(name) == DotCount(name)
    decreases |name|
  {
    DotCountZero(name);
    if Dot in name {
      WithoutExtensionDropsOneDot(name);
      ExtensionCountIsDotCount(WithoutExtension(name));
    }
  }

  /**
   * GetNumberOfExtensions: 0 when one strip leaves the name unchanged,
   * otherwise the strips are repeated until the name no longer changes.
   */
  method GetNumberOfExtensions(name: string) returns (count: nat)
    ensures count == 0 <==> WithoutExtension(name) == name
    ensures count == ExtensionCount(name)
    ensures count == DotCount(name)
  {
    ExtensionCountIsDotCount(name);
    var name1 := WithoutExtension(name);
    if name == name1 {
      return 0;
    }
    count := 1;
    var name2 := WithoutExtension(name1);
    while name1 != name2
      invariant name2 == WithoutExtension(name1)
      invariant count + ExtensionCount(name1) == ExtensionCount(name)
      invariant count >= 1
      decreases |name1|
    {
      count := count + 1;
      name1 := name2;
      name2 := WithoutExtension(name1);
    }
  }

  /** The guard ButArchiveFile_Click puts on a picked file: not an archive, and exactly one extension. */
  predicate FileAccepted(name: string)
  {
    Extension(name) != ArchiveExtension && ExtensionCount(name) == 1
  }

  /** The guard ButArchiveFolder_Click puts on a picked folder: no extension at all. */
  predicate FolderAccepted(name: string)
  {
    ExtensionCount(name) == 0
  }

  /** A file is accepted exactly when its name has one dot and does not end in ".zip". */
  lemma FileAcceptedByDots(name: string)
    ensures FileAccepted(name) <==> DotCount(name) == 1 && Extension(name) != ArchiveExtension
  {
    ExtensionCountIsDotCount(name);
  }

  /** A folder is accepted exactly when its name has no dot. */
  lemma FolderAcceptedByDots(name: string)
    ensures FolderAccepted(name) <==> Dot !in name
  {
    ExtensionCountIsDotCount(name);
    DotCountZero(name);
  }

  /** What an archive held before it was made, as read back from its name. */
  datatype Origin = OriginalFolder | OriginalFile

  /**
   * ButExtractArchiveFile_Click strips the archive's name twice: when the second
   * strip changes nothing the archive holds a folder, otherwise a file.
   */
  function ArchiveOrigin(archive: string): Origin
  {
    var name1 := WithoutExtension(archive);
    var name2 := WithoutExtension(name1);
    if name1 == name2 then OriginalFolder else OriginalFile
  }

  /** The name of the folder or file an archive is extracted to. */
  function DestinationName(archive: string): (r: string)
    ensures ExtensionCount(archive) >= 1 ==> ExtensionCount(r) == ExtensionCount(archive) - 1
    ensures Extension(archive) == ArchiveExtension ==> r + ArchiveExtension == archive
    ensures Extension(archive) != "" ==> r + Extension(archive) == archive
  {
    WithoutExtension(archive)
  }

  /** The folder branch is taken exactly when the archive's name has at most one extension. */
  lemma ArchiveOriginByExtensionCount(archive: string)
    ensures ArchiveOrigin(archive) == OriginalFolder <==> ExtensionCount(archive) <= 1
    ensures ArchiveOrigin(archive) == OriginalFile <==> ExtensionCount(archive) >= 2
  {
    var name1 := WithoutExtension(archive);
    ExtensionCountIsDotCount(archive);
    ExtensionCountIsDotCount(name1);
    DotCountZero(archive);
    DotCountZero(name1);
    if Dot in archive {
      WithoutExtensionDropsOneDot(archive);
    }
  }

  /**
   * Every name the extract picker offers has an extension (".zip", matched
   * without regard to case): such an archive is read as a folder iff it has
   * exactly one extension, as a file iff it has two or more.
   */
  lemma ArchiveOriginOfPickedArchive(archive: string)
    requires Extension(archive) != ""
    ensures ArchiveOrigin(archive) == OriginalFolder <==> ExtensionCount(archive) == 1
    ensures ArchiveOrigin(archive) == OriginalFile <==> ExtensionCount(archive) >= 2
  {
    ArchiveOriginByExtensionCount(archive);
    ExtensionCountIsDotCount(archive);
    DotCountZero(archive);
  }

  /** A file accepted for archiving is extracted again as a file with its own name. */
  lemma FileRoundTrip(name: string)
    requires FileAccepted(name)
    ensures ArchiveOrigin(ArchiveName(name)) == OriginalFile
    ensures DestinationName(ArchiveName(name)) == name
  {
    var archive := ArchiveName(name);
    ExtensionCountIsDotCount(name);
    ExtensionCountIsDotCount(archive);
    ArchiveOriginByExtensionCount(archive);
  }

  /** A folder accepted for archiving is extracted again as a folder with its own name. */
  lemma FolderRoundTrip(name: string)
    requires FolderAccepted(name)
    ensures ArchiveOrigin(ArchiveName(name)) == OriginalFolder
    ensures DestinationName(ArchiveName(name)) == name
  {
    var archive := ArchiveName(name);
    ExtensionCountIsDotCount(name);
    ExtensionCountIsDotCount(archive);
    ArchiveOriginByExtensionCount(archive);
  }

  /** The archives of accepted files and of accepted folders never share a name. */
  lemma ArchiveNamesDistinguishOrigin(file: string, folder: string)
    requires FileAccepted(file) && FolderAccepted(folder)
    ensures ArchiveName(file) != ArchiveName(folder)
  {
    FileRoundTrip(file);
    FolderRoundTrip(folder);
  }

  /**
   * The convention cannot tell an extensionless file from a folder: its archive
   * would read back as a folder, which is why such a file is refused.
   */
  lemma ExtensionlessFileIsRefused(name: string)
    requires ExtensionCount(name) == 0
    ensures !FileAccepted(name)
    ensures ArchiveOrigin(ArchiveName(name)) == OriginalFolder
  {
    FolderRoundTrip(name);
  }
}

=== FILE: file_names.dfy ===
/**
 * The two System.IO.Path operations the application relies on, stated for an
 * item name (a storage item's Name, which never contains a directory or volume
 * separator). They are library behaviour that the rest of the model assumes.
 */
module FileNames {

  /** The character that starts an extension. */
  const Dot: char := '.'

  /** String.LastIndexOf(c): the index of the last `c` in `s`, or -1 when `s` has none. */
  function LastIndexOf(s: string, c: char): (r: int)
    ensures -1 <= r < |s|
    ensures r >= 0 ==> s[r] == c
    ensures forall j :: r < j < |s| ==> s[j] != c
  {
    if |s| == 0 then -1
    else if s[|s| - 1] == c then |s| - 1
    else LastIndexOf(s[..|s| - 1], c)
  }

  /**
   * Path.GetFileNameWithoutExtension: the part of the name before its last
   * dot, or the whole name when it has no dot.
   */
  function WithoutExtension(name: string): (r: string)
    ensures r <= name
    ensures Dot !in name ==> r == name
    ensures Dot in name ==> |r| < |name| && name[|r|] == Dot && Dot !in name[|r| + 1..]
  {
    var i := LastIndexOf(name, Dot);
    if i == -1 then name else name[..i]
  }

  /**
   * Path.GetExtension: the suffix starting at the last dot, or "" when the
   * name has no dot or ends with its last dot.
   */
  function Extension(name: string): (r: string)
    ensures r == "" || (|r| >= 2 && r[0] == Dot && name == WithoutExtension(name) + r)
    ensures Dot in name && name[|name| - 1] != Dot ==> name == WithoutExtension(name) + r
    ensures Dot !in name ==> r == ""
  {
    var i := LastIndexOf(name, Dot);
    if i == -1 || i == |name| - 1 then "" else name[i..]
  }

  /** The number of dots in a name. */
  function DotCount(s: string): nat
  {
    multiset(s)[Dot]
  }

  lemma DotCountZero(s: string)
    ensures DotCount(s) == 0 <==> Dot !in s
  {
    assert Dot in s <==> Dot in multiset(s);
  }

  /** Stripping an extension removes exactly one dot, the last one. */
  lemma WithoutExtensionDropsOneDot(name: string)
    requires Dot in name
    ensures DotCount(WithoutExtension(name)) == DotCount(name) - 1
  {
    var w := WithoutExtension(name);
    var tail := name[|w| + 1..];
    assert name == w + [Dot] + tail;
    DotCountZero(tail);
    assert multiset(name) == multiset(w) + multiset([Dot]) + multiset(tail);
  }

  /** Appending an extension adds its dots, and stripping gives the name back. */
  lemma StripAppendedExtension(name: string, ext: string)
    requires |ext| >= 2 && ext[0] == Dot && Dot !in ext[1..]
    ensures WithoutExtension(name + ext) == name
    ensures Extension(name + ext) == ext
    ensures DotCount(name + ext) == DotCount(name) + 1
  {
    var s := name + ext;
    assert s[|name|] == Dot;
    assert s[|name| + 1..] == ext[1..];
    var w := WithoutExtension(s);
    assert w == name;
    assert ext == [Dot] + ext[1..];
    assert multiset(s) == multiset(name) + multiset([Dot]) + multiset(ext[1..]);
    DotCountZero(ext[1..]);
  }
}

=== FILE: handlers.dfy ===
/**
 * The three button handlers that archive a file, archive a folder and extract
 * an archive. Each runs a chain of checks and then acts on the picked item's
 * parent folder. The platform's and the archive library's answers come in as
 * an Oracle; the handler returns its status and the trace of what it did.
 */
module Handlers {
  import opened Wrappers
  import opened FileNames
  import opened Extensions
  import opened Settings

  /** The answers the platform and the archive library give during one click. */
  datatype Oracle = Oracle(
    tokenFolderExists: bool,   // StorageFolderTokenCheckIfExistsAsync
    picked: Option<string>,    // name of the picked item; None when the picker was cancelled
    inParentTree: bool,        // StorageFolderFromFolderPickerAsync found the picked folder
    parentAccessible: bool,    // GetParentAsync returned the parent folder
    locked: bool,              // LibZA.IStorageItemLockCheckAsync
    createSucceeded: bool,     // CreateFileAsync or CreateFolderAsync returned the new item
    engineSucceeded: bool,     // LibZA.ZipArchiveCompressAsync or LibZA.ZipArchiveExtractAsync
    skippedPaths: seq<string>) // LibZA.listItemPathErrors after the engine call

  /** Why a handler stopped; each is the message the handler shows. */
  datatype Abort =
    | TokenFolderMissing
    | NothingPicked
    | OutsideParentTree
    | ParentInaccessible
    | AlreadyArchived
    | NotOneExtension
    | FolderHasExtension
    | Locked
    | DestinationExists
    | CreateFailed
    | CompressFailed
    | CompressIncomplete(skipped: seq<string>)
    | ExtractFailed
    | ExtractIncomplete(skipped: seq<string>)

  datatype Status = Succeeded | Aborted(reason: Abort)

  /** A call into the archive library. */
  datatype EngineCall =
    | CompressInto(archive: string, source: string, level: CompressionLevel)
    | ExtractFrom(archive: string, into: Option<string>)  // None: into the parent folder itself

  /** The item an engine call reads. */
  function Input(call: EngineCall): string
  {
    match call
    case CompressInto(_, source, _) => source
    case ExtractFrom(archive, _) => archive
  }

  /** One step a handler takes on the parent folder. */
  datatype Effect =
    | CreateFile(name: string)
    | CreateFolder(name: string)
    | RunEngine(call: EngineCall, ok: bool)
    | Delete(name: string)

  datatype Outcome = Outcome(status: Status, effects: seq<Effect>)

  /** A handler that stopped for `reason` before touching the parent folder. */
  function Stopped(reason: Abort): Outcome
  {
    Outcome(Aborted(reason), [])
  }

  /** The names in the parent folder after the handler's own creations and deletions. */
  function Apply(names: set<string>, effects: seq<Effect>): set<string>
  {
    if effects == [] then names
    else
      var before := Apply(names, effects[..|effects| - 1]);
      match effects[|effects| - 1]
      case CreateFile(n) => before + {n}
      case CreateFolder(n) => before + {n}
      case RunEngine(_, _) => before
      case Delete(n) => before - {n}
  }

  /** No item is created under a name that is already taken. */
  predicate NeverOverwrites(parent: set<string>, effects: seq<Effect>)
  {
    forall i | 0 <= i < |effects| && (effects[i].CreateFile? || effects[i].CreateFolder?) ::
      effects[i].name !in Apply(parent, effects[..i])
  }

  /** The engine writes only into an item this click created, or under a free name. */
  predicate EngineWritesFresh(parent: set<string>, effects: seq<Effect>)
  {
    forall i | 0 <= i < |effects| && effects[i].RunEngine? ::
      match effects[i].call
      case CompressInto(archive, _, _) => CreateFile(archive) in effects[..i]
      case ExtractFrom(_, Some(folder)) => CreateFolder(folder) in effects[..i]
      case ExtractFrom(archive, None) => DestinationName(archive) !in Apply(parent, effects[..i])
  }

  /**
   * Every deletion directly follows an engine call: after a success it removes
   * the item the engine read, after a failure only an item this click created.
   */
  predicate DeletesFollowEngine(parent: set<string>, effects: seq<Effect>)
  {
    forall i | 0 <= i < |effects| && effects[i].Delete? ::
      && 0 < i
      && effects[i - 1].RunEngine?
      && (if effects[i - 1].ok then effects[i].name == Input(effects[i - 1].call)
          else effects[i].name !in parent)
  }

  /** The destructive-step discipline every handler keeps. */
  predicate Safe(parent: set<string>, effects: seq<Effect>)
  {
    NeverOverwrites(parent, effects) && EngineWritesFresh(parent, effects) && DeletesFollowEngine(parent, effects)
  }

  /**
   * Create the archive, run the compressor, then delete the source on success;
   * on failure delete the new archive only when `deleteOnFailure`.
   */
  function CompressSteps(archive: string, source: string, level: CompressionLevel, ok: bool, deleteOnFailure: bool): seq<Effect>
  {
    [CreateFile(archive), RunEngine(CompressInto(archive, source, level), ok)]
    + (if ok then [Delete(source)] else if deleteOnFailure then [Delete(archive)] else [])
  }

  lemma CompressStepsSafe(parent: set<string>, archive: string, source: string, level: CompressionLevel, ok: bool, deleteOnFailure: bool)
    requires archive !in parent && archive != source
    ensures Safe(parent, CompressSteps(archive, source, level, ok, deleteOnFailure))
    ensures Apply(parent, CompressSteps(archive, source, level, ok, deleteOnFailure)) ==
      if ok then parent - {source} + {archive} else if deleteOnFailure then parent else parent + {archive}
  {
    var t := CompressSteps(archive, source, level, ok, deleteOnFailure);
    assert t[..0] == [];
    assert t[..1] == [CreateFile(archive)];
    assert t[..1][..0] == [];
    assert Apply(parent, t[..1]) == parent + {archive};
    assert t[..2][..1] == t[..1];
    assert Apply(parent, t[..2]) == parent + {archive};
    if |t| == 3 {
      assert t[..3] == t;
    } else {
      assert t[..2] == t;
    }
  }

  /** Create the destination folder, run the extractor into it, then delete the archive on success. */
  function ExtractIntoFolderSteps(archive: string, folder: string, ok: bool): seq<Effect>
  {
    [CreateFolder(folder), RunEngine(ExtractFrom(archive, Some(folder)), ok)]
    + (if ok then [Delete(archive)] else [])
  }

  lemma ExtractIntoFolderStepsSafe(parent: set<string>, archive: string, folder: string, ok: bool)
    requires folder !in parent
    ensures Safe(parent, ExtractIntoFolderSteps(archive, folder, ok))
    ensures Apply(parent, ExtractIntoFolderSteps(archive, folder, ok)) ==
      if ok then parent + {folder} - {archive} else parent + {folder}
  {
    var t := ExtractIntoFolderSteps(archive, folder, ok);
    assert t[..0] == [];
    assert t[..1] == [CreateFolder(folder)];
    assert t[..1][..0] == [];
    assert Apply(parent, t[..1]) == parent + {folder};
    assert t[..2][..1] == t[..1];
    assert Apply(parent, t[..2]) == parent + {folder};
    if ok {
      assert t[..3] == t;
    } else {
      assert t[..2] == t;
    }
  }

  /** Run the extractor into the parent folder itself, then delete the archive on success. */
  function ExtractIntoParentSteps(archive: string, ok: bool): seq<Effect>
  {
    [RunEngine(ExtractFrom(archive, None), ok)] + (if ok then [Delete(archive)] else [])
  }

  lemma ExtractIntoParentStepsSafe(parent: set<string>, archive: string, ok: bool)
    requires DestinationName(archive) !in parent
    ensures Safe(parent, ExtractIntoParentSteps(archive, ok))
    ensures Apply(parent, ExtractIntoParentSteps(archive, ok)) == if ok then parent - {archive} else parent
  {
    var t := ExtractIntoParentSteps(archive, ok);
    assert t[..0] == [];
    assert t[..1][..0] == [];
    assert Apply(parent, t[..1]) == parent;
    if ok {
      assert t[..2] == t;
    } else {
      assert t[..1] == t;
    }
  }

  /** The first two checks every handler makes: the access token exists and an item was picked. */
  predicate Picked(o: Oracle)
  {
    o.tokenFolderExists && o.picked.Some?
  }

  /** Every check ButArchiveFile_Click makes before it creates the archive. */
  predicate FileChecksPass(o: Oracle, parent: set<string>)
  {
    && Picked(o) && o.parentAccessible
    && FileAccepted(o.picked.value) && !o.locked
    && ArchiveName(o.picked.value) !in parent && o.createSucceeded
  }

  /**
   * ButArchiveFile_Click: archive the picked file to "<name>.zip" beside it,
   * then delete the file; when the engine fails, delete the new archive.
   */
  function ArchiveFile(o: Oracle, level: CompressionLevel, parent: set<string>): (r: Outcome)
    ensures Safe(parent, r.effects)
    ensures r.effects != [] <==> FileChecksPass(o, parent)
    ensures r.status.Succeeded? <==> FileChecksPass(o, parent) && o.engineSucceeded
    ensures r.status.Succeeded? ==>
      Apply(parent, r.effects) == parent - {o.picked.value} + {ArchiveName(o.picked.value)}
    ensures r.status == Aborted(CompressFailed) ==> Apply(parent, r.effects) == parent
    ensures r.status.Aborted? && r.status.reason != CompressFailed ==> r.effects == []
    ensures FileChecksPass(o, parent) ==>
      r.effects == CompressSteps(ArchiveName(o.picked.value), o.picked.value, level, o.engineSucceeded, true)
    // Each abort is the first check that fails, in the order the handler makes them.
    ensures !o.tokenFolderExists ==> r == Stopped(TokenFolderMissing)
    ensures o.tokenFolderExists && o.picked.None? ==> r == Stopped(NothingPicked)
    ensures Picked(o) && !o.parentAccessible ==> r == Stopped(ParentInaccessible)
    ensures (Picked(o) && o.parentAccessible
      && Extension(o.picked.value) == ArchiveExtension) ==> r == Stopped(AlreadyArchived)
    ensures (Picked(o) && o.parentAccessible
      && Extension(o.picked.value) != ArchiveExtension && ExtensionCount(o.picked.value) != 1) ==> r == Stopped(NotOneExtension)
    ensures (Picked(o) && o.parentAccessible
      && FileAccepted(o.picked.value) && o.locked) ==> r == Stopped(Locked)
    ensures (Picked(o) && o.parentAccessible
      && FileAccepted(o.picked.value) && !o.locked
      && ArchiveName(o.picked.value) in parent) ==> r == Stopped(DestinationExists)
    ensures (Picked(o) && o.parentAccessible
      && FileAccepted(o.picked.value) && !o.locked
      && ArchiveName(o.picked.value) !in parent && !o.createSucceeded) ==> r == Stopped(CreateFailed)
  {
    if !o.tokenFolderExists then Stopped(TokenFolderMissing)
    else if o.picked.None? then Stopped(NothingPicked)
    else
      var name := o.picked.value;
      if !o.parentAccessible then Stopped(ParentInaccessible)
      else if Extension(name) == ArchiveExtension then Stopped(AlreadyArchived)
      else if ExtensionCount(name) != 1 then Stopped(NotOneExtension)
      else if o.locked then Stopped(Locked)
      else
        var archive := ArchiveName(name);
        if archive in parent then Stopped(DestinationExists)
        else if !o.createSucceeded then Stopped(CreateFailed)
        else
          CompressStepsSafe(parent, archive, name, level, o.engineSucceeded, true);
          var steps := CompressSteps(archive, name, level, o.engineSucceeded, true);
          if o.engineSucceeded then Outcome(Succeeded, steps) else Outcome(Aborted(CompressFailed), steps)
  }

  /** Every check ButArchiveFolder_Click makes before it creates the archive. */
  predicate FolderChecksPass(o: Oracle, parent: set<string>)
  {
    && Picked(o) && o.inParentTree
    && FolderAccepted(o.picked.value) && !o.locked && o.parentAccessible
    && ArchiveName(o.picked.value) !in parent && o.createSucceeded
  }

  /**
   * ButArchiveFolder_Click: archive the picked folder to "<name>.zip" beside it,
   * then delete the folder; when the engine reports skipped items the partial
   * archive and the folder are both kept.
   */
  function ArchiveFolder(o: Oracle, level: CompressionLevel, parent: set<string>): (r: Outcome)
    ensures Safe(parent, r.effects)
    ensures r.effects != [] <==> FolderChecksPass(o, parent)
    ensures r.status.Succeeded? <==> FolderChecksPass(o, parent) && o.engineSucceeded
    ensures r.status.Succeeded? ==>
      Apply(parent, r.effects) == parent - {o.picked.value} + {ArchiveName(o.picked.value)}
    ensures r.status.Aborted? && r.status.reason.CompressIncomplete? ==>
      o.picked.Some? && Apply(parent, r.effects) == parent + {ArchiveName(o.picked.value)}
      && r.status.reason.skipped == o.skippedPaths
    ensures r.status.Aborted? && !r.status.reason.CompressIncomplete? ==> r.effects == []
    ensures FolderChecksPass(o, parent) ==>
      r.effects == CompressSteps(ArchiveName(o.picked.value), o.picked.value, level, o.engineSucceeded, false)
    // Each abort is the first check that fails, in the order the handler makes them.
    ensures !o.tokenFolderExists ==> r == Stopped(TokenFolderMissing)
    ensures o.tokenFolderExists && o.picked.None? ==> r == Stopped(NothingPicked)
    ensures Picked(o) && !o.inParentTree ==> r == Stopped(OutsideParentTree)
    ensures (Picked(o) && o.inParentTree
      && !FolderAccepted(o.picked.value)) ==> r == Stopped(FolderHasExtension)
    ensures (Picked(o) && o.inParentTree
      && FolderAccepted(o.picked.value) && o.locked) ==> r == Stopped(Locked)
    ensures (Picked(o) && o.inParentTree
      && FolderAccepted(o.picked.value) && !o.locked && !o.parentAccessible) ==> r == Stopped(ParentInaccessible)
    ensures (Picked(o) && o.inParentTree
      && FolderAccepted(o.picked.value) && !o.locked && o.parentAccessible
      && ArchiveName(o.picked.value) in parent) ==> r == Stopped(DestinationExists)
    ensures (Picked(o) && o.inParentTree
      && FolderAccepted(o.picked.value) && !o.locked && o.parentAccessible
      && ArchiveName(o.picked.value) !in parent && !o.createSucceeded) ==> r == Stopped(CreateFailed)
  {
    if !o.tokenFolderExists then Stopped(TokenFolderMissing)
    else if o.picked.None? then Stopped(NothingPicked)
    else
      var name := o.picked.value;
      if !o.inParentTree then Stopped(OutsideParentTree)
      else if ExtensionCount(name) != 0 then Stopped(FolderHasExtension)
      else if o.locked then Stopped(Locked)
      else if !o.parentAccessible then Stopped(ParentInaccessible)
      else
        var archive := ArchiveName(name);
        if archive in parent then Stopped(DestinationExists)
        else if !o.createSucceeded then Stopped(CreateFailed)
        else
          CompressStepsSafe(parent, archive, name, level, o.engineSucceeded, false);
          var steps := CompressSteps(archive, name, level, o.engineSucceeded, false);
          if o.engineSucceeded then Outcome(Succeeded, steps)
          else Outcome(Aborted(CompressIncomplete(o.skippedPaths)), steps)
  }

  /** The checks ButExtractArchiveFile_Click makes before it looks at the destination. */
  predicate ExtractPreChecksPass(o: Oracle)
  {
    Picked(o) && o.parentAccessible && !o.locked
  }

  /** Every check ButExtractArchiveFile_Click makes before it writes anything. */
  predicate ExtractChecksPass(o: Oracle, parent: set<string>)
  {
    && ExtractPreChecksPass(o)
    && DestinationName(o.picked.value) !in parent
    && (ArchiveOrigin(o.picked.value) == OriginalFolder ==> o.createSucceeded)
  }

  /**
   * ButExtractArchiveFile_Click: an archive of a folder is extracted into a new
   * folder named after it, an archive of a file straight into the parent; the
   * archive is deleted only when the engine succeeded.
   */
  function ExtractArchive(o: Oracle, parent: set<string>): (r: Outcome)
    ensures Safe(parent, r.effects)
    ensures r.effects != [] <==> ExtractChecksPass(o, parent)
    ensures r.status.Succeeded? <==> ExtractChecksPass(o, parent) && o.engineSucceeded
    ensures r.status.Succeeded? ==> Delete(o.picked.value) in r.effects
    ensures r.effects != [] && ArchiveOrigin(o.picked.value) == OriginalFolder ==>
      r.effects[0] == CreateFolder(DestinationName(o.picked.value))
    ensures r.effects != [] && ArchiveOrigin(o.picked.value) == OriginalFile ==>
      r.effects[0] == RunEngine(ExtractFrom(o.picked.value, None), o.engineSucceeded)
    ensures o.picked.Some? && Delete(o.picked.value) in r.effects ==> r.status.Succeeded?
    ensures ExtractChecksPass(o, parent) && !o.engineSucceeded ==>
      r.status == Aborted(if ArchiveOrigin(o.picked.value) == OriginalFolder
                          then ExtractIncomplete(o.skippedPaths) else ExtractFailed)
    // Each abort before the engine runs is the first check that fails, in the order the handler makes them.
    ensures !o.tokenFolderExists ==> r == Stopped(TokenFolderMissing)
    ensures o.tokenFolderExists && o.picked.None? ==> r == Stopped(NothingPicked)
    ensures Picked(o) && !o.parentAccessible ==> r == Stopped(ParentInaccessible)
    ensures Picked(o) && o.parentAccessible && o.locked ==> r == Stopped(Locked)
    ensures ExtractPreChecksPass(o) && DestinationName(o.picked.value) in parent ==> r == Stopped(DestinationExists)
    ensures (ExtractPreChecksPass(o) && DestinationName(o.picked.value) !in parent
      && ArchiveOrigin(o.picked.value) == OriginalFolder && !o.createSucceeded) ==> r == Stopped(CreateFailed)
  {
    if !o.tokenFolderExists then Stopped(TokenFolderMissing)
    else if o.picked.None? then Stopped(NothingPicked)
    else
      var archive := o.picked.value;
      if !o.parentAccessible then Stopped(ParentInaccessible)
      else if o.locked then Stopped(Locked)
      else
        var destination := DestinationName(archive);
        if ArchiveOrigin(archive) == OriginalFolder then
          if destination in parent then Stopped(DestinationExists)
          else if !o.createSucceeded then Stopped(CreateFailed)
          else
            ExtractIntoFolderStepsSafe(parent, archive, destination, o.engineSucceeded);
            var steps := ExtractIntoFolderSteps(archive, destination, o.engineSucceeded);
            if o.engineSucceeded then Outcome(Succeeded, steps)
            else Outcome(Aborted(ExtractIncomplete(o.skippedPaths)), steps)
        else
          if destination in parent then Stopped(DestinationExists)
          else
            ExtractIntoParentStepsSafe(parent, archive, o.engineSucceeded);
            var steps := ExtractIntoParentSteps(archive, o.engineSucceeded);
            if o.engineSucceeded then Outcome(Succeeded, steps) else Outcome(Aborted(ExtractFailed), steps)
  }

  /** Once its checks pass, an archive of a file is extracted straight into the parent. */
  lemma ExtractFileArchive(o: Oracle, parent: set<string>)
    requires ExtractPreChecksPass(o) && ArchiveOrigin(o.picked.value) == OriginalFile
    requires DestinationName(o.picked.value) !in parent
    ensures ExtractArchive(o, parent).effects == ExtractIntoParentSteps(o.picked.value, o.engineSucceeded)
  {
  }

  /** Once its checks pass, an archive of a folder is extracted into a new folder named after it. */
  lemma ExtractFolderArchive(o: Oracle, parent: set<string>)
    requires ExtractPreChecksPass(o) && ArchiveOrigin(o.picked.value) == OriginalFolder && o.createSucceeded
    requires DestinationName(o.picked.value) !in parent
    ensures ExtractArchive(o, parent).effects
      == ExtractIntoFolderSteps(o.picked.value, DestinationName(o.picked.value), o.engineSucceeded)
  {
  }

  /** A successful file archive leaves the file's name free in the parent folder. */
  lemma ArchiveFileFreesName(o1: Oracle, level: CompressionLevel, parent: set<string>)
    requires FileChecksPass(o1, parent) && o1.engineSucceeded
    ensures o1.picked.value !in Apply(parent, ArchiveFile(o1, level, parent).effects)
  {
    var name := o1.picked.value;
    var r1 := ArchiveFile(o1, level, parent);
    assert r1.status.Succeeded?;
    ArchiveNameIsNew(name);
    assert Apply(parent, r1.effects) == parent - {name} + {ArchiveName(name)};
  }

  /** Extracting the archive of an accepted file, in a folder where the file's name is free. */
  lemma ExtractAfterFileArchive(o2: Oracle, after: set<string>, name: string)
    requires FileAccepted(name) && name !in after
    requires ExtractPreChecksPass(o2) && o2.picked == Some(ArchiveName(name))
    ensures ExtractArchive(o2, after).effects == ExtractIntoParentSteps(ArchiveName(name), o2.engineSucceeded)
  {
    FileRoundTrip(name);
    ExtractFileArchive(o2, after);
  }

  /**
   * A file archived successfully (every check passed and the engine succeeded)
   * is recognised as a file when its archive is extracted in the folder that
   * results: the destination name is free again, and the extractor writes the
   * file back into the parent under its old name.
   */
  lemma ArchiveFileThenExtract(o1: Oracle, level: CompressionLevel, parent: set<string>, o2: Oracle)
    requires FileChecksPass(o1, parent) && o1.engineSucceeded
    requires ExtractPreChecksPass(o2) && o2.picked == Some(ArchiveName(o1.picked.value))
    ensures DestinationName(o2.picked.value) == o1.picked.value
    ensures ExtractArchive(o2, Apply(parent, ArchiveFile(o1, level, parent).effects)).effects
      == ExtractIntoParentSteps(ArchiveName(o1.picked.value), o2.engineSucceeded)
  {
    var name := o1.picked.value;
    FileRoundTrip(name);
    ArchiveFileFreesName(o1, level, parent);
    ExtractAfterFileArchive(o2, Apply(parent, ArchiveFile(o1, level, parent).effects), name);
  }

  /** A successful folder archive leaves the folder's name free in the parent folder. */
  lemma ArchiveFolderFreesName(o1: Oracle, level: CompressionLevel, parent: set<string>)
    requires FolderChecksPass(o1, parent) && o1.engineSucceeded
    ensures o1.picked.value !in Apply(parent, ArchiveFolder(o1, level, parent).effects)
  {
    var name := o1.picked.value;
    var r1 := ArchiveFolder(o1, level, parent);
    assert r1.status.Succeeded?;
    ArchiveNameIsNew(name);
    assert Apply(parent, r1.effects) == parent - {name} + {ArchiveName(name)};
  }

  /** Extracting the archive of an accepted folder, in a folder where the folder's name is free. */
  lemma ExtractAfterFolderArchive(o2: Oracle, after: set<string>, name: string)
    requires FolderAccepted(name) && name !in after
    requires ExtractPreChecksPass(o2) && o2.createSucceeded && o2.picked == Some(ArchiveName(name))
    ensures ExtractArchive(o2, after).effects == ExtractIntoFolderSteps(ArchiveName(name), name, o2.engineSucceeded)
  {
    FolderRoundTrip(name);
    ExtractFolderArchive(o2, after);
  }

  /**
   * A folder archived successfully (every check passed and the engine
   * succeeded) is recognised as a folder when its archive is extracted in the
   * folder that results: a folder of the old name is created and the archive
   * is extracted into it.
   */
  lemma ArchiveFolderThenExtract(o1: Oracle, level: CompressionLevel, parent: set<string>, o2: Oracle)
    requires FolderChecksPass(o1, parent) && o1.engineSucceeded
    requires ExtractPreChecksPass(o2) && o2.createSucceeded && o2.picked == Some(ArchiveName(o1.picked.value))
    ensures DestinationName(o2.picked.value) == o1.picked.value
    ensures ExtractArchive(o2, Apply(parent, ArchiveFolder(o1, level, parent).effects)).effects
      == ExtractIntoFolderSteps(ArchiveName(o1.picked.value), o1.picked.value, o2.engineSucceeded)
  {
    var name := o1.picked.value;
    FolderRoundTrip(name);
    ArchiveFolderFreesName(o1, level, parent);
    ExtractAfterFolderArchive(o2, Apply(parent, ArchiveFolder(o1, level, parent).effects), name);
  }
}

=== FILE: items_report.dfy ===
/**
 * The text shown to the user for the paths the archive library could not
 * process: a count with singular or plural wording, then one path per line.
 */
module ItemsReport {

  /** Environment.NewLine on Windows, the platform the application runs on. */
  const NewLine: string := "\r\n"

  /** The decimal digit for `d`. */
  function Digit(d: nat): char
    requires d < 10
  {
    ('0' as int + d) as char
  }

  /** Int32.ToString() of a non-negative count: its decimal digits, no leading zero. */
  function Decimal(n: nat): (r: string)
    ensures |r| >= 1
    ensures forall i :: 0 <= i < |r| ==> '0' <= r[i] <= '9'
    ensures r[0] == '0' ==> n == 0
  {
    if n < 10 then [Digit(n)] else Decimal(n / 10) + [Digit(n % 10)]
  }

  /** Reads a string of decimal digits back as a number. */
  function ParseDecimal(s: string): nat
    requires forall i :: 0 <= i < |s| ==> '0' <= s[i] <= '9'
  {
    if s == [] then 0
    else ParseDecimal(s[..|s| - 1]) * 10 + (s[|s| - 1] as int - '0' as int)
  }

  /** The count in a report header can be read back. */
  lemma {:induction false} DecimalRoundTrip(n: nat)
    ensures ParseDecimal(Decimal(n)) == n
  {
    if n >= 10 {
      var s, prefix := Decimal(n), Decimal(n / 10);
      assert s == prefix + [Digit(n % 10)];
      assert s[..|s| - 1] == prefix;
      DecimalRoundTrip(n / 10);
    }
  }

  /** The header line: LibMPC.JoinListString of the count and the wording, joined by one space. */
  function Header(count: nat): string
  {
    NewLine + Decimal(count) + " " + (if count == 1 then "item not processed" else "items not processed")
  }

  lemma HeaderSingular()
    ensures Header(1) == NewLine + "1 item not processed"
  {
  }

  lemma HeaderPlural(count: nat)
    requires count != 1
    ensures Header(count) == NewLine + Decimal(count) + " items not processed"
  {
  }

  /** Each path, in list order, on a line of its own. */
  function Lines(paths: seq<string>): string
  {
    if paths == [] then "" else Lines(paths[..|paths| - 1]) + NewLine + paths[|paths| - 1]
  }

  /** Appending one path appends one line. */
  lemma LinesSnoc(paths: seq<string>, path: string)
    ensures Lines(paths + [path]) == Lines(paths) + NewLine + path
  {
    assert (paths + [path])[..|paths|] == paths;
  }

  /** The lines of two lists one after another are the lines of the joined list. */
  lemma {:induction false} LinesAppend(a: seq<string>, b: seq<string>)
    ensures Lines(a + b) == Lines(a) + Lines(b)
    decreases |b|
  {
    if b == [] {
      assert a + b == a;
    } else {
      var b', last := b[..|b| - 1], b[|b| - 1];
      assert b == b' + [last];
      assert a + b == (a + b') + [last];
      LinesSnoc(a + b', last);
      LinesSnoc(b', last);
      LinesAppend(a, b');
      var x, y := Lines(a), Lines(b');
      assert (x + y) + NewLine + last == x + (y + NewLine + last);
    }
  }

  /** A path stands on its own line, after the lines of the paths before it and before those after it. */
  lemma LinesListEachPathInOrder(before: seq<string>, path: string, after: seq<string>)
    ensures Lines(before + [path] + after) == Lines(before) + NewLine + path + Lines(after)
  {
    LinesAppend(before + [path], after);
    LinesSnoc(before, path);
  }

  /** The lines of a whole list are the lines of its full prefix. */
  lemma LinesOfFullPrefix(paths: seq<string>)
    ensures Lines(paths[..|paths|]) == Lines(paths)
  {
    assert paths[..|paths|] == paths;
  }

  /** StringListItemPathErrors: builds the report by appending one line per path. */
  method StringListItemPathErrors(paths: seq<string>) returns (report: string)
    ensures report == if paths == [] then ""
      else if |paths| == 1 then NewLine + "1 item not processed" + NewLine + paths[0]
      else NewLine + Decimal(|paths|) + " items not processed" + Lines(paths)
  {
    report := "";
    if |paths| > 0 {
      var header := Header(|paths|);
      report := header;
      var i := 0;
      while i < |paths|
        invariant 0 <= i <= |paths|
        invariant report == header + Lines(paths[..i])
      {
        LinesOfNextPrefix(paths, i);
        report := report + NewLine + paths[i];
        i := i + 1;
      }
      LinesOfFullPrefix(paths);
      assert report == header + Lines(paths);
      if |paths| == 1 {
        LinesOfSingle(paths);
        HeaderSingular();
      } else {
        HeaderPlural(|paths|);
      }
    }
  }

  lemma LinesOfNextPrefix(paths: seq<string>, i: nat)
    requires i < |paths|
    ensures Lines(paths[..i + 1]) == Lines(paths[..i]) + NewLine + paths[i]
  {
    assert paths[..i + 1][..i] == paths[..i];
  }

  lemma LinesOfSingle(paths: seq<string>)
    requires |paths| == 1
    ensures Lines(paths) == NewLine + paths[0]
  {
    assert paths[..0] == [];
  }
}

=== FILE: settings.dfy ===
/**
 * The application's settings in its local data store: the rate-prompt
 * counter, the compression level, and the reset switch used at page load.
 */
module Settings {

  /** C# `int`. */
  newtype Int32 = x: int | -0x8000_0000 <= x < 0x8000_0000

  /** `x++` on a C# int in an unchecked context: the largest value wraps to the smallest. */
  function Increment(x: Int32): (r: Int32)
    ensures r as int == (x as int + 1 + 0x8000_0000) % 0x1_0000_0000 - 0x8000_0000
  {
    if x == 0x7fff_ffff then -0x8000_0000 else x + 1
  }

  /** The values the application writes to the data store. */
  datatype Value = IntValue(i: Int32) | StringValue(s: string) | BoolValue(b: bool)

  /** ApplicationDataContainer.Values: settings by key. */
  type Store = map<string, Value>

  const PurchasedKey: string := "BoolAppPurchased"
  const RatedKey: string := "BoolAppRated"
  const CounterKey: string := "IntAppRatedCounter"
  const LevelKey: string := "CompressionLevelApp"

  /** intShowButRateApp: page loads between two showings of the rate button. */
  const ShowRateButtonAfter: Int32 := 6

  /** The counter, when present, holds a value the rate check has written. */
  predicate CounterInRange(store: Store)
  {
    CounterKey in store ==> store[CounterKey].IntValue? && 0 <= store[CounterKey].i < ShowRateButtonAfter
  }

  /** The store after a rate check, and whether the rate button is made visible. */
  datatype RateCheck = RateCheck(store: Store, showRateButton: bool)

  /**
   * AppRatedCheck: unless the application has been rated, count one more page
   * load; on the sixth the counter goes back to 0 and the rate button is shown.
   * The counter is read with an `(int)` cast, so it must hold an int.
   */
  function AppRatedCheck(rated: bool, store: Store): (r: RateCheck)
    requires CounterKey in store ==> store[CounterKey].IntValue?
    ensures rated ==> r == RateCheck(store, false)
    ensures !rated ==> r.store.Keys == store.Keys + {CounterKey} && r.store[CounterKey].IntValue?
    ensures forall k :: k in store && k != CounterKey ==> k in r.store && r.store[k] == store[k]
    ensures !rated && CounterKey !in store ==> r == RateCheck(store[CounterKey := IntValue(1)], false)
    ensures !rated && CounterKey in store && Increment(store[CounterKey].i) < ShowRateButtonAfter ==>
      r.store[CounterKey] == IntValue(Increment(store[CounterKey].i))
    ensures r.showRateButton <==> !rated && CounterKey in store && Increment(store[CounterKey].i) >= ShowRateButtonAfter
    ensures r.showRateButton ==> r.store[CounterKey] == IntValue(0)
    ensures CounterInRange(store) ==> CounterInRange(r.store)
  {
    if rated then RateCheck(store, false)
    else if CounterKey in store then
      var counter := Increment(store[CounterKey].i);
      if counter >= ShowRateButtonAfter then RateCheck(store[CounterKey := IntValue(0)], true)
      else RateCheck(store[CounterKey := IntValue(counter)], false)
    else RateCheck(store[CounterKey := IntValue(1)], false)
  }

  /** The store after `loads` page loads of an application that has not been rated. */
  function RateChecks(store: Store, loads: nat): (r: Store)
    requires CounterKey in store ==> store[CounterKey].IntValue?
    ensures loads > 0 ==> CounterKey in r && r[CounterKey].IntValue?
    ensures loads == 0 ==> r == store
  {
    if loads == 0 then store else AppRatedCheck(false, RateChecks(store, loads - 1)).store
  }

  /** One unrated page load moves a counter in 0..5 one step round the cycle. */
  lemma RateCheckStep(store: Store, counter: Int32)
    requires CounterKey in store && store[CounterKey] == IntValue(counter) && 0 <= counter < 6
    ensures AppRatedCheck(false, store).store[CounterKey] == IntValue(if counter == 5 then 0 else counter + 1)
    ensures AppRatedCheck(false, store).showRateButton <==> counter == 5
  {
  }

  lemma ModSixStep(k: nat)
    ensures (k + 1) % 6 == if k % 6 == 5 then 0 else k % 6 + 1
  {
  }

  /**
   * Starting from a store without a counter, the counter after k page loads is
   * k mod 6, and the rate button is shown on exactly every sixth load.
   */
  lemma {:induction false} RateButtonEverySixthLoad(store: Store, loads: nat)
    requires CounterKey !in store
    requires loads >= 1
    ensures RateChecks(store, loads)[CounterKey] == IntValue((loads % 6) as Int32)
    ensures AppRatedCheck(false, RateChecks(store, loads - 1)).showRateButton <==> loads % 6 == 0
  {
    var before := RateChecks(store, loads - 1);
    var after := AppRatedCheck(false, before);
    assert RateChecks(store, loads) == after.store;
    if loads == 1 {
      assert before == store;
    } else {
      var counter := ((loads - 1) % 6) as Int32;
      assert CounterKey in before && before[CounterKey] == IntValue(counter) by {
        RateButtonEverySixthLoad(store, loads - 1);
      }
      assert after.store[CounterKey] == IntValue(if counter == 5 then 0 else counter + 1)
        && (after.showRateButton <==> counter == 5) by {
        RateCheckStep(before, counter);
      }
      assert (loads % 6) as Int32 == (if counter == 5 then 0 else counter + 1)
        && (loads % 6 == 0 <==> counter == 5) by {
        ModSixStep(loads - 1);
      }
    }
  }

  /** System.IO.Compression.CompressionLevel. */
  datatype CompressionLevel = Optimal | Fastest | NoCompression

  /** The string a radio button handler stores for its level. */
  function LevelName(level: CompressionLevel): string
  {
    match level
    case Optimal => "Optimal"
    case Fastest => "Fastest"
    case NoCompression => "NoCompression"
  }

  /** The level in use and the store after it was chosen or read. */
  datatype LevelSetting = LevelSetting(level: CompressionLevel, store: Store)

  /**
   * AppCompressionLevelSet: a stored "Fastest" or "Optimal" selects that level;
   * anything else, or nothing, selects NoCompression and stores its name.
   */
  function AppCompressionLevelSet(store: Store): (r: LevelSetting)
    ensures r.store.Keys == store.Keys + {LevelKey}
    ensures r.store[LevelKey] == StringValue(LevelName(r.level))
    ensures forall k :: k in store && k != LevelKey ==> r.store[k] == store[k]
    ensures r.level != NoCompression ==> r.store == store
    ensures LevelKey in store && store[LevelKey] == StringValue("Fastest") ==> r.level == Fastest
    ensures LevelKey in store && store[LevelKey] == StringValue("Optimal") ==> r.level == Optimal
    ensures LevelKey !in store ==> r.level == NoCompression
  {
    if LevelKey in store && store[LevelKey] == StringValue("Fastest") then LevelSetting(Fastest, store)
    else if LevelKey in store && store[LevelKey] == StringValue("Optimal") then LevelSetting(Optimal, store)
    else LevelSetting(NoCompression, store[LevelKey := StringValue("NoCompression")])
  }

  /**
   * ButRadioNoCompression_Checked, ButRadioFastest_Checked and
   * ButRadioOptimal_Checked: select a level and store its name, which the next
   * page load reads back as the same level.
   */
  function RadioChecked(level: CompressionLevel, store: Store): (r: LevelSetting)
    ensures r.level == level
    ensures r.store.Keys == store.Keys + {LevelKey}
    ensures forall k :: k in store && k != LevelKey ==> k in r.store && r.store[k] == store[k]
    ensures AppCompressionLevelSet(r.store) == r
  {
    LevelSetting(level, store[LevelKey := StringValue(LevelName(level))])
  }

  /** Reading the level twice gives what reading it once gave. */
  lemma LevelSetIdempotent(store: Store)
    ensures AppCompressionLevelSet(AppCompressionLevelSet(store).store) == AppCompressionLevelSet(store)
  {
  }

  /** EnumResetApp. */
  datatype ResetOption = DoNothing | ResetApp | ResetPurchaseHistory | ResetRateHistory | ShowDataStoreValues

  /** The data store together with the page's purchased and rated flags. */
  datatype AppState = AppState(store: Store, purchased: bool, rated: bool)

  /**
   * AppReset: clear every setting, or forget the purchase or the rating; the
   * other options change nothing (ShowDataStoreValues only writes debug output).
   */
  function AppReset(option: ResetOption, s: AppState): (r: AppState)
    ensures option in {DoNothing, ShowDataStoreValues} ==> r == s
    ensures option == ResetApp ==> r.store == map[] && r.purchased == s.purchased && r.rated == s.rated
    ensures option == ResetPurchaseHistory ==>
      r.store.Keys == s.store.Keys - {PurchasedKey} && !r.purchased && r.rated == s.rated
    ensures option == ResetRateHistory ==>
      r.store.Keys == s.store.Keys - {RatedKey} && !r.rated && r.purchased == s.purchased
    ensures forall k :: k in r.store ==> k in s.store && r.store[k] == s.store[k]
  {
    match option
    case DoNothing => s
    case ResetApp => s.(store := map[])
    case ResetPurchaseHistory => AppState(s.store - {PurchasedKey}, false, s.rated)
    case ResetRateHistory => AppState(s.store - {RatedKey}, s.purchased, false)
    case ShowDataStoreValues => s
  }

  /** Resetting twice is resetting once. */
  lemma ResetIdempotent(option: ResetOption, s: AppState)
    ensures AppReset(option, AppReset(option, s)) == AppReset(option, s)
  {
  }

  /**
   * After a full reset the next page load starts over: the level read is no
   * compression, stored as "NoCompression", and the rate check that follows it
   * (the rated flag is gone with the store) starts the counter at 1.
   */
  lemma ResetAppStartsOver(s: AppState)
    ensures AppCompressionLevelSet(AppReset(ResetApp, s).store) == LevelSetting(NoCompression, map[LevelKey := StringValue("NoCompression")])
    ensures AppRatedCheck(false, AppCompressionLevelSet(AppReset(ResetApp, s).store).store)
      == RateCheck(map[LevelKey := StringValue("NoCompression"), CounterKey := IntValue(1)], false)
  {
  }
}

=== FILE: wrappers.dfy ===
/** Optional values: a picker that was cancelled, a key missing from the store. */
module Wrappers {

  datatype Option<+T> = None | Some(value: T)
}
